=== FILE: README.md ===
# Task manager core, modelled in Dafny

This project models the core of a small Python task manager (`tp2_task_manager`)
and the list helpers of `TP/list_operations.py`, and proves properties of that
model.

- **Storage** (`storage.dfy`, from `tp2_task_manager/storage.py`). A JSON file
  holds a list of task records. `load_tasks` reads it and falls back to the empty
  list. `save_tasks` overwrites it. `add_task`, `delete_task` and `update_task`
  each load, modify and save. The module-level helpers choose the `tasks.json`
  next to the module when no filename is given. The file is abstracted as
  `Absent`, `Unparseable` or `Parsed(value)`, and JSON values as a `Value`
  datatype.
- **Tasks** (`tasks.dfy`, from `tp2_task_manager/app.py`). The `Task` record and
  the in-memory `TaskRepository`: `add`, `find_by_id`, `remove_by_id`,
  `load_from_dicts` and `to_dicts`, with the next id recomputed as one more than
  the largest id present.
- **Service** (`service.dfy`, from `tp2_task_manager/app.py`). `TaskService` is a
  repository plus the file it is synced with. It covers `create_task`,
  `retrieve_all_tasks` (which reloads from the file), `retrieve_task_by_id`,
  `update_task_completion`, `delete_task`, and the two sync helpers. Python's
  exceptions become `Result` failures. The `ValueError` for an empty title and
  the `TaskNotFoundError` carry the same messages as in Python, for ids of at
  most 4300 digits. A stored list that `load_from_dicts` cannot convert gives
  `CorruptStore`, whose cause says which kind of element failed. It stands for
  the `AttributeError` or `TypeError` that Python raises, and it does not carry
  their messages. The same holds for `Storage`'s `NotARecord`.
- **Cli** (`cli.dfy`, from `tp2_task_manager/cli.py`). `format_task`, together
  with a parser for its output that serves as the partner of the round-trip
  property.
- **ListOperations** (`list_operations.dfy`, from `TP/list_operations.py`).
  `sum_list` as a loop proved against a recursive sum, `squares`, and the
  empty-list error of `average`.
- Supporting modules:
  - `wrappers.dfy`: `Option` and `Result`.
  - `json.dfy`: JSON values, and Python's `==` between a JSON value and an
    `int`, where `True == 1`.
  - `sequences.dfy`: filtering and subsequences.
  - `text.dfy`: `str.isspace`, `str.strip`, and the decimal rendering of
    integers.

Identifiers can be reused within one service. `retrieve_all_tasks`
(`tp2_task_manager/app.py:247-248`) reloads the file, and `load_from_dicts`
(`tp2_task_manager/app.py:132`) recomputes the next id as `max(id) + 1`. So
after the task with the largest id is deleted, a listing sets the next id to
one more than the largest remaining id. That is the deleted id again when the
id just below it is still present. With ids 1 and 3, for example, deleting 3
and listing gives next id 2. `Service.ReloadReusesDeletedLargestId` proves the
reuse for ids 1, 2 and 3. Without a reload in between, the id is not reused
(`Service.CreateAfterDeleteDoesNotReuse`).

## Model

| member | source | states |
|---|---|---|
| Text.Strip | tp2_task_manager/app.py:225-228 | The stripped title neither starts nor ends with a character for which `str.isspace` holds. It is empty exactly when every character of the title is whitespace. |
| Text.StripRemovesOnlyEdgeSpace | tp2_task_manager/app.py:228 | `strip` only cuts whitespace off the two ends: the result is a contiguous piece of the title, and everything before and after it is whitespace. |
| Text.StripOfTrimmed | tp2_task_manager/app.py:228 | A title with no whitespace at either end is stored verbatim. |
| Text.StripKeepsVowelSeparator | tp2_task_manager/app.py:225-228 | U+180E is not whitespace for Python 3's `str.isspace`, so a title made of it is neither stripped nor blank. |
| Text.IntToDecimal | tp2_task_manager/cli.py:39 | The f-string rendering of an id starts with `-` exactly when the id is negative, and every other character is a decimal digit. There is no leading zero except for `0` itself, and no `-0`. |
| Text.ParseIntOnlyCanonical | tp2_task_manager/cli.py:39 | The reader accepts only canonical numerals: whatever it reads is exactly the rendering of the value read. |
| Text.IntToDecimalRoundTrip | tp2_task_manager/cli.py:39 | Reading the rendered decimal back gives the id: the rendering loses nothing. |
| Storage.LoadTasks | tp2_task_manager/storage.py:25-40 | A nonempty load comes only from a file holding a JSON list, and then it is exactly that list. A missing file, a file whose read raises `IOError`, a file that is not JSON, and a file holding a non-list value all load as the empty list. |
| Storage.SaveTasks | tp2_task_manager/storage.py:42-50 | Saving overwrites the file, so loading it back gives exactly the saved list, whatever the file held before. |
| Storage.AddTask | tp2_task_manager/storage.py:52-61 | After `add_task`, the file loads as the old list with the record appended at the end. |
| Storage.DeleteTask | tp2_task_manager/storage.py:63-80 | Succeeds exactly when every element is a dict. It reports a deletion exactly when some record's `"id"` equals the id. Without a match the file is untouched. With a match, no record with the id remains, and the file holds exactly the other records, duplicates included, in their original order. |
| Storage.DeleteTwiceFindsNothing | tp2_task_manager/storage.py:63-80 | A second `delete_task` with the same id reports false and writes nothing. |
| Storage.StopIndex | tp2_task_manager/storage.py:94-95 | The loop of `update_task` stops at the first element that is not a dict or whose `"id"` matches. Every element before it is a non-matching dict. |
| Storage.UpdateTask | tp2_task_manager/storage.py:82-99 | Fails exactly when a non-dict element is reached before any match. Reports false and leaves the file alone when nothing matches. Otherwise only the first matching record changes, to its keys merged with the updates, where updated keys take the new values and other keys keep theirs. The list keeps its length. |
| Storage.UpdateTwiceSameAsOnce | tp2_task_manager/storage.py:94-98 | Applying the same updates twice, when they do not touch `"id"`, gives the same file and answer as applying them once. |
| Storage.ResolvePath | tp2_task_manager/storage.py:131 | `filename or DEFAULT_TASKS_FILE`: `None` and the empty string both select the default file. Any other name is used as given. |
| Storage.LoadTasksFrom | tp2_task_manager/storage.py:104-133 | The module-level load reads the default file when the name is `None` or empty, and the named file otherwise. A file that does not exist loads as the empty list. |
| Storage.SaveTasksTo | tp2_task_manager/storage.py:136-156 | The module-level save changes only the resolved file. Loading under any name that resolves to the same path gives back the saved list. |
| Tasks.MaxId | tp2_task_manager/app.py:66 | `max(t.id for t in tasks)` is an upper bound of the ids and is one of them. |
| Tasks.NextIdFor | tp2_task_manager/app.py:132 | The recomputed next id is above every id present. It is 1 for no tasks, and otherwise one more than an id that is present. |
| Tasks.Add | tp2_task_manager/app.py:57-66 | `add` appends at the end and keeps every id below the next id. When the task carries the current next id, the counter advances by exactly one. |
| Tasks.FirstIndexOf | tp2_task_manager/app.py:81 | There is a position exactly when some task has the id, and it is the first such position. |
| Tasks.FindById | tp2_task_manager/app.py:68-81 | `find_by_id` finds a task exactly when one has the id, and returns the first one with it. |
| Tasks.RemoveById | tp2_task_manager/app.py:93-108 | Reports true exactly when some task had the id. No task with the id remains. Exactly the other tasks are kept, duplicates included, in their order. The counter does not move, and the invariant that ids are below it is preserved. |
| Tasks.TaskToDict | tp2_task_manager/app.py:142 | `asdict(task)` has exactly the keys `id`, `title` and `done`, and converting it back gives the same task. |
| Tasks.ToDicts | tp2_task_manager/app.py:134-142 | `to_dicts` gives one dict per task, in order, each being `asdict` of that task. |
| Tasks.RecordToTask | tp2_task_manager/app.py:129 | Conversion succeeds exactly for a dict with an integer `id`, a string `title`, and a boolean `done` if present. An element that is not a dict fails as `NotARecord`, a dict without `id` or `title` fails as `MissingField`. A built task copies `id` and `title` from the record, and `done` too when present, which is false otherwise. |
| Tasks.RecordsToTasks | tp2_task_manager/app.py:128-131 | The comprehension succeeds exactly when every record converts, and then gives one task per record, in order. |
| Tasks.LoadFromDicts | tp2_task_manager/app.py:120-132 | Succeeds exactly when every record converts. The tasks correspond to the records one for one. The recomputed next id is above every id, is 1 for an empty list, and is otherwise one more than a present id. |
| Tasks.TaskDictRoundTrip | tp2_task_manager/app.py:36-42 | Building a `Task` from `asdict(task)` gives back the same task. |
| Tasks.RecordToTaskIgnoresOtherKeys | tp2_task_manager/app.py:129 | Keys other than `id`, `title` and `done` have no influence on the task built from a record. |
| Tasks.DoneDefaultsToFalse | tp2_task_manager/app.py:42 | A record with an integer `id`, a string `title` and no `done` converts, to an open task with that id and title. |
| Tasks.LoadFromDictsOfToDicts | tp2_task_manager/app.py:120-142 | `load_from_dicts(to_dicts())` rebuilds the same tasks, with the next id recomputed from them. |
| Tasks.ToDictsOfLoaded | tp2_task_manager/app.py:128-142 | `to_dicts` after `load_from_dicts` gives back each record with only the three task keys, and with `done` filled in as false when it was absent. |
| Service.NotFoundMessage | tp2_task_manager/app.py:277 | The not-found message is `Task with ID `, then the id in decimal, then ` not found`, and nothing else. The id can be read back from it. |
| Service.SyncToStorage | tp2_task_manager/app.py:192-199 | After `_sync_to_storage`, the file holds exactly `to_dicts` of the repository. |
| Service.SyncFromStorage | tp2_task_manager/app.py:183-190 | `_sync_from_storage` succeeds exactly when every stored record converts, and otherwise fails as `CorruptStore`. The tasks are the stored records converted one for one, in order. The next id is one more than the largest id, or 1 when there is none, and every id is below it. An empty store gives the empty repository. |
| Service.Open | tp2_task_manager/app.py:170-181 | The constructor succeeds exactly when every stored record converts. The tasks are then the stored records converted one for one, and the next id is one more than the largest id. A service opened on a missing file, or on one that fails to read or to parse, starts empty with next id 1. |
| Service.ReloadOfSyncedFile | tp2_task_manager/app.py:183-199 | Reloading a file the service itself wrote gives back the same tasks, with the next id recomputed. |
| Service.CreateTask | tp2_task_manager/app.py:225-231 | Fails with `Task title cannot be empty` exactly when the title is empty or all whitespace. Otherwise it appends an open task with the stripped title and the current next id, and saves. The new id is not already in use, and the counter advances by one. |
| Service.CreateAcceptsVowelSeparator | tp2_task_manager/app.py:225-231 | A title made of U+180E is accepted and stored as given, as Python 3 does. |
| Service.CreateKeepsIdsUnique | tp2_task_manager/app.py:228-229 | Creating a task keeps ids pairwise distinct. |
| Service.RetrieveAllTasks | tp2_task_manager/app.py:247-249 | Listing reloads from the file, whatever the service held. It succeeds exactly when every stored record converts. The listed tasks are the stored records converted one for one, in order, and the next id becomes one more than the largest id listed. On a synced service it returns the same tasks, and, while the service holds tasks, the next id never exceeds the previous one. |
| Service.NextIdBound | tp2_task_manager/app.py:132 | Under the id invariant, recomputing the next id from nonempty tasks never gives more than the current counter. |
| Service.RetrieveTaskById | tp2_task_manager/app.py:275-278 | Returns the first task with the id exactly when one exists. Otherwise it raises `TaskNotFoundError` with the message naming the id. |
| Service.UpdateTaskCompletion | tp2_task_manager/app.py:304-310 | Fails with `TaskNotFoundError` exactly when no task has the id. Otherwise it flips `done` on the first task with the id, changes nothing else, returns that task, and saves. The counter is unchanged. |
| Service.DeleteTask | tp2_task_manager/app.py:329-331 | Fails with `TaskNotFoundError` exactly when no task has the id. Otherwise it removes every task with the id and keeps exactly the others, duplicates included, in order. The counter is unchanged, and the file is saved. |
| Sequences.FilterUnique | tp2_task_manager/app.py:107 | A subsequence made of kept elements, as long as the number of kept elements, is the filter's result. So the length clause of the delete contracts pins the kept list down. |
| Service.ToggleTwiceRestores | tp2_task_manager/app.py:304-310 | Toggling the same task twice gives back the original repository. |
| Service.DeletedIdNotListed | tp2_task_manager/app.py:329-331 | After a deletion, the reloaded list shows no task with that id. |
| Service.CreateAfterDeleteDoesNotReuse | tp2_task_manager/app.py:107-108 | Without a reload, a task created after a deletion gets the current counter and not the deleted id. |
| Service.CreateAllConsecutiveIds | tp2_task_manager/app.py:228-229 | Creating several tasks in turn gives consecutive ids from the current counter. The tasks are appended in order, each with its stripped title and open. |
| Service.ThreeCreatesOnEmptyStore | tp2_task_manager/test_app_new.py:155-166 | On an empty store, three creations give ids 1, 2 and 3 in insertion order. |
| Service.ReloadReusesDeletedLargestId | tp2_task_manager/app.py:247-248 | After tasks 1, 2 and 3 are created on an empty store, task 3 is deleted and the list is retrieved, the next created task gets id 3 again. |
| Cli.FormatTask | tp2_task_manager/cli.py:38-39 | The line starts with `[` and ends with ` - DONE` or ` - NOT DONE`, according to the flag. |
| Cli.FormatTaskParses | tp2_task_manager/cli.py:38-39 | The formatted line determines the id, the verbatim title and the flag: parsing it back gives all three, whatever the title contains. |
| Cli.ParsedLineShowsCanonicalId | tp2_task_manager/cli.py:39 | In a line that parses, the text between `[` and the first `]` is exactly the decimal rendering of the parsed id. With `Cli.FormatTaskParses`, `format_task` prints `str(task_id)` there. |
| Cli.FormatTaskNotDoneExample | tp2_task_manager/cli.py:33-34 | `format_task(1, "Buy milk", False)` is `[1] Buy milk - NOT DONE`. |
| Cli.FormatTaskDoneExample | tp2_task_manager/cli.py:35-36 | `format_task(2, "Write docs", True)` is `[2] Write docs - DONE`. |
| ListOperations.SumList | TP/list_operations.py:29-32 | The accumulation loop returns the sum of the list. |
| ListOperations.SumAppend | TP/list_operations.py:30-31 | Adding one more element adds it to the total, which is the step the loop takes. |
| ListOperations.SumListExamples | TP/list_operations.py:22-27 | The sums are 6, 60 and 0 for `[1, 2, 3]`, `[10, 20, 30]` and `[]`. |
| ListOperations.Squares | TP/list_operations.py:53 | One square per element, in order, and never negative. |
| ListOperations.SquaresAppend | TP/list_operations.py:53 | Squaring a concatenation squares each part. |
| ListOperations.SquaresExamples | TP/list_operations.py:46-51 | The docstring examples: `[1, 4, 9, 16]`, `[4, 9, 25]` and `[]`. |
| ListOperations.Average | TP/list_operations.py:75-77 | Raises `ValueError("Cannot calculate average of an empty list")` exactly when the list is empty. Otherwise it is the sum over the length. |
| ListOperations.SumBounds | TP/list_operations.py:77 | When every element lies between two bounds, the sum lies between the length times each bound, so the mean lies between the bounds. |

## Left out

- Real file and JSON I/O. A file is one of three abstract states, and encoding, indentation and `ensure_ascii` are not modelled.
- Storage.LoadTasks: an `IOError` while reading is folded into `Unparseable`, which loads as the empty list, as the code does.
- A file whose bytes are not valid UTF-8 is not modelled. Reading it raises `UnicodeDecodeError`, which `load_tasks` does not catch (`tp2_task_manager/storage.py:39`), so `load_tasks` and the `TaskService` constructor raise. The model has no file state for it.
- Storage.SaveTasks: a failing write is not modelled, and the write always succeeds. In Python, an `IOError`, or a `UnicodeEncodeError` from a title holding a lone surrogate (a Python `str` can hold one, a Dafny `char` cannot), can be raised after `open(..., "w")` has truncated the file and part of the list has been written (`tp2_task_manager/storage.py:49-50`). The next `load_tasks` then sees invalid JSON and returns `[]`, so every stored task is lost.
- JSON floats are not modelled. So Python's `1.0 == 1` in the `"id"` comparison of `delete_task` and `update_task` is not covered. Booleans, where `True == 1`, are covered.
- Tasks.RecordToTask: a record whose `id` is not a JSON integer, whose `title` is not a string, or whose `done` is not a boolean is rejected as `IllTypedField`. Python's dataclass would store such a value unchecked, and the model does not follow it into later arithmetic or formatting.
- `DEFAULT_TASKS_FILE` is a path of its own, `DefaultPath`, because the directory of the module is a run-time value. Paths are not normalised, so a caller's name that happens to denote the same file as the default, or two spellings of one file, are treated as different files. In Python, `save_tasks(records, DEFAULT_TASKS_FILE)`, or `save_tasks(records, "tasks.json")` run from the module's directory, writes the default file; the model writes a separate `Named` file.
- Text.IntToDecimal: Python's limit of 4300 digits on conversion between `int` and `str` (Python 3.11, and the security releases of 3.7 to 3.10) is not modelled. In Python a longer id makes the f-string raise `ValueError`.
- Service.NotFoundMessage: for an id of more than 4300 digits, `retrieve_task_by_id`, `update_task_completion` and `delete_task` raise `ValueError` while building the message (`tp2_task_manager/app.py:277`, `306`, `330`), not `TaskNotFoundError`. The model gives the message for every id.
- Cli.FormatTask: for an id of more than 4300 digits `format_task` raises `ValueError` (`tp2_task_manager/cli.py:39`). The model formats every id.
- Storage.LoadTasks: a file holding a JSON number of more than 4300 digits makes `json.load` raise a plain `ValueError`, which `load_tasks` does not catch (`tp2_task_manager/storage.py:39`). The model loads it like any other number.
- `create_task(None)` is not modelled, because titles are strings.
- `find_all` and `get_next_id` are the fields `tasks` and `nextId` of the repository. The copy that `find_all` makes is immaterial for immutable values.
- Aliasing of `Task` objects is not modelled. `Task` is a mutable dataclass, and `create_task`, `retrieve_task_by_id` and `update_task_completion` return the repository's own object (`tp2_task_manager/app.py:228-231`, `275-278`, `304-310`). `find_all` copies only the list. In Python, a task returned earlier sees later toggles, and a caller that assigns to its fields changes the repository without saving and can break the invariant that ids are below the next id. The model returns values, and its invariants assume callers do not mutate returned tasks.
- Concurrent access by several processes, which the reload in `retrieve_all_tasks` is meant to tolerate, is not modelled. The file is whatever the service last saw or wrote.
- The argparse handlers of `cli.py` other than `format_task`, and the printing they do, are left out because they are I/O around the service.
- ListOperations.Average: the result is the exact quotient as a pair (sum, length), not the rounded `float` that `/` returns, since floating point is not modelled.
- The `main` test driver of `TP/list_operations.py` is left out because it only prints.

=== FILE: cli.dfy ===
/** `format_task` of tp2_task_manager/cli.py, the one line the command-line
    interface prints per task. */
module Cli {
  import opened Wrappers
  import opened Text

  /** The fields a formatted line carries. */
  datatype TaskLine = TaskLine(id: int, title: string, done: bool)

  predicate EndsWith(s: string, suffix: string) {
    |suffix| <= |s| && s[|s| - |suffix|..] == suffix
  }

  function StatusText(done: bool): string {
    if done then "DONE" else "NOT DONE"
  }

  /** The first position of `c` in `s`, if any. */
  function IndexOfChar(s: string, c: char): (r: Option<nat>)
    ensures r.Some? ==> r.value < |s| && s[r.value] == c
    ensures r.Some? ==> forall j :: 0 <= j < r.value ==> s[j] != c
    ensures r.None? ==> forall j :: 0 <= j < |s| ==> s[j] != c
  {
    if |s| == 0 then None
    else if s[0] == c then Some(0)
    else match IndexOfChar(s[1..], c)
      case None => None
      case Some(k) => Some(k + 1)
  }

  /** Splits `title - NOT DONE` or `title - DONE` into the title and the flag. */
  function ParseStatus(rest: string): Option<(string, bool)> {
    if EndsWith(rest, " - NOT DONE") then Some((rest[..|rest| - 11], false))
    else if EndsWith(rest, " - DONE") then Some((rest[..|rest| - 7], true))
    else None
  }

  /** Reads a formatted line back: `[`, a decimal id up to the first `]`, a space,
      then the title followed by ` - NOT DONE` or ` - DONE`. */
  function ParseTaskLine(line: string): Option<TaskLine> {
    if |line| == 0 || line[0] != '[' then None
    else match IndexOfChar(line, ']')
      case None => None
      case Some(j) =>
        if j + 1 >= |line| || line[j + 1] != ' ' then None
        else match ParseInt(line[1..j])
          case None => None
          case Some(id) =>
            match ParseStatus(line[j + 2..])
            case None => None
            case Some((title, done)) => Some(TaskLine(id, title, done))
  }

  /** `format_task(task_id, title, done)`: `[id] title - DONE` or `[id] title - NOT DONE`.
      `FormatTaskParses` shows the line determines the id, the verbatim title
      and the flag. */
  function FormatTask(id: int, title: string, done: bool): (line: string)
    ensures |line| > 0 && line[0] == '['
    ensures done ==> EndsWith(line, " - DONE")
    ensures !done ==> EndsWith(line, " - NOT DONE")
  {
    "[" + IntToDecimal(id) + "] " + title + " - " + StatusText(done)
  }

  /** The first `c` of `prefix + [c] + suffix` is the one after `prefix` when
      `prefix` has none. */
  lemma {:induction false} IndexOfCharAfter(prefix: string, c: char, suffix: string)
    requires forall k :: 0 <= k < |prefix| ==> prefix[k] != c
    ensures IndexOfChar(prefix + [c] + suffix, c) == Some(|prefix|)
  {
    if |prefix| > 0 {
      assert (prefix + [c] + suffix)[1..] == prefix[1..] + [c] + suffix;
      IndexOfCharAfter(prefix[1..], c, suffix);
    }
  }

  /** The status word at the end of a formatted line is read back unambiguously,
      whatever the title holds. */
  lemma ParseStatusOfFormatted(title: string, done: bool)
    ensures ParseStatus(title + " - " + StatusText(done)) == Some((title, done))
  {
    var rest := title + " - " + StatusText(done);
    if done {
      assert rest[|rest| - 7] == ' ';
      assert rest[..|rest| - 7] == title;
    } else {
      assert rest[..|rest| - 11] == title;
    }
  }

  /** A decimal numeral holds no closing bracket. */
  lemma NoBracketInNumeral(id: int)
    ensures forall k :: 0 <= k < |IntToDecimal(id)| ==> IntToDecimal(id)[k] != ']'
  {
    var digits := IntToDecimal(id);
    forall k | 0 <= k < |digits|
      ensures digits[k] != ']'
    {
      assert IsDigit(digits[k]) || digits[k] == '-';
    }
  }

  /** A line `[` + digits + `] ` + body parses to what its parts parse to. */
  lemma ParseOfParts(digits: string, body: string, id: int, title: string, done: bool)
    requires forall k :: 0 <= k < |digits| ==> digits[k] != ']'
    requires ParseInt(digits) == Some(id)
    requires ParseStatus(body) == Some((title, done))
    ensures ParseTaskLine("[" + digits + "] " + body) == Some(TaskLine(id, title, done))
  {
    var prefix := "[" + digits;
    var line := prefix + [']'] + (" " + body);
    assert line == "[" + digits + "] " + body;
    assert forall k :: 0 <= k < |prefix| ==> prefix[k] != ']' by {
      forall k | 0 <= k < |prefix|
        ensures prefix[k] != ']'
      {
        if k > 0 {
          assert prefix[k] == digits[k - 1];
        }
      }
    }
    IndexOfCharAfter(prefix, ']', " " + body);
    var j := |prefix|;
    assert line[1..j] == digits;
    assert line[j + 2..] == body;
  }

  /** Reading a formatted line back yields the id, the title and the flag it
      was formatted from. */
  lemma FormatTaskParses(id: int, title: string, done: bool)
    ensures ParseTaskLine(FormatTask(id, title, done)) == Some(TaskLine(id, title, done))
  {
    var digits := IntToDecimal(id);
    var body := title + " - " + StatusText(done);
    assert FormatTask(id, title, done) == "[" + digits + "] " + body;
    NoBracketInNumeral(id);
    IntToDecimalRoundTrip(id);
    ParseStatusOfFormatted(title, done);
    ParseOfParts(digits, body, id, title, done);
  }

  /** A line that parses has, between `[` and the first `]`, exactly the decimal
      rendering of the id it parses to. With `FormatTaskParses`, the numeral
      `FormatTask` prints is `str(id)`: no leading zero and no `-0`. */
  lemma ParsedLineShowsCanonicalId(line: string)
    requires ParseTaskLine(line).Some?
    ensures var digits := IntToDecimal(ParseTaskLine(line).value.id);
      && 1 + |digits| < |line|
      && line[1..1 + |digits|] == digits
      && line[1 + |digits|] == ']'
  {
    var j := IndexOfChar(line, ']').value;
    ParseIntOnlyCanonical(line[1..j]);
  }

  /** The first example in the docstring of `format_task`. The title is a
      parameter fixed by `requires` rather than a literal argument, so that the
      proof compares it as one value instead of character by character. */
  lemma FormatTaskNotDoneExample(milk: string)
    requires milk == "Buy milk"
    ensures FormatTask(1, milk, false) == "[1] Buy milk - NOT DONE"
  {
    assert IntToDecimal(1) == "1" by {
      assert DigitChar(1) == '1';
    }
    assert FormatTask(1, milk, false) == "[1] " + milk + " - NOT DONE";
  }

  /** The second example in the docstring of `format_task`. The title is a
      parameter fixed by `requires` rather than a literal argument, so that the
      proof compares it as one value instead of character by character. */
  lemma FormatTaskDoneExample(docs: string)
    requires docs == "Write docs"
    ensures FormatTask(2, docs, true) == "[2] Write docs - DONE"
  {
    assert IntToDecimal(2) == "2" by {
      assert DigitChar(2) == '2';
    }
    assert FormatTask(2, docs, true) == "[2] " + docs + " - DONE";
  }
}

=== FILE: json.dfy ===
/** Decoded JSON documents, as Python's `json` module hands them to the task manager. */
module Json {

  /** A decoded JSON value. Non-integral numbers are not represented. */
  datatype Value =
    | Null
    | Bool(b: bool)
    | Int(i: int)
    | Str(s: string)
    | Arr(items: seq<Value>)
    | Obj(fields: map<string, Value>)

  /** A JSON object: a Python `dict` with string keys. */
  type Record = map<string, Value>

  /** Python's `v == n` for a decoded value `v` and an `int` `n`.
      `bool` is a subclass of `int` in Python, so `True == 1` and `False == 0`;
      `None`, strings, lists and dicts never equal an `int`. */
  predicate EqualsInt(v: Value, n: int) {
    match v
    case Int(i) => i == n
    case Bool(b) => (if b then 1 else 0) == n
    case _ => false
  }

  /** Python's `record.get(key) == n`: a missing key yields `None`, which equals no `int`. */
  predicate FieldEquals(r: Record, key: string, n: int) {
    key in r && EqualsInt(r[key], n)
  }

  /** A list element whose `"id"` compares equal to `n`; only a dict has a `get` method. */
  predicate HasId(v: Value, n: int) {
    v.Obj? && FieldEquals(v.fields, "id", n)
  }
}

=== FILE: list_operations.dfy ===
/** TP/list_operations.py: summing and squaring a list of integers, and the
    empty-list check of `average`. */
module ListOperations {
  import opened Wrappers

  /** The mathematical sum of a sequence, first element first. */
  function Sum(nums: seq<int>): int {
    if |nums| == 0 then 0 else nums[0] + Sum(nums[1..])
  }

  /** Adding one more element at the end adds it to the sum. */
  lemma {:induction false} SumAppend(nums: seq<int>, x: int)
    ensures Sum(nums + [x]) == Sum(nums) + x
  {
    if |nums| > 0 {
      assert (nums + [x])[1..] == nums[1..] + [x];
      SumAppend(nums[1..], x);
    }
  }

  /** `sum_list`: the accumulation loop, whose running total is the sum of the
      prefix seen so far. */
  method SumList(nums: seq<int>) returns (total: int)
    ensures total == Sum(nums)
  {
    total := 0;
    for i := 0 to |nums|
      invariant total == Sum(nums[..i])
    {
      assert nums[..i + 1] == nums[..i] + [nums[i]];
      SumAppend(nums[..i], nums[i]);
      total := total + nums[i];
    }
    assert nums[..|nums|] == nums;
  }

  /** The docstring examples of `sum_list`. */
  lemma SumListExamples()
    ensures Sum([]) == 0
    ensures Sum([1, 2, 3]) == 6
    ensures Sum([10, 20, 30]) == 60
  {
  }

  /** `squares`: `[num * num for num in nums]`. */
  function Squares(nums: seq<int>): (r: seq<int>)
    ensures |r| == |nums|
    ensures forall i :: 0 <= i < |nums| ==> r[i] == nums[i] * nums[i]
    ensures forall i :: 0 <= i < |r| ==> r[i] >= 0
  {
    if |nums| == 0 then [] else [nums[0] * nums[0]] + Squares(nums[1..])
  }

  /** Squaring a concatenation squares each part. */
  lemma {:induction false} SquaresAppend(a: seq<int>, b: seq<int>)
    ensures Squares(a + b) == Squares(a) + Squares(b)
  {
    if |a| > 0 {
      assert (a + b)[1..] == a[1..] + b;
      SquaresAppend(a[1..], b);
    } else {
      assert a + b == b;
    }
  }

  /** The docstring examples of `squares`. */
  lemma SquaresExamples()
    ensures Squares([]) == []
    ensures Squares([1, 2, 3, 4]) == [1, 4, 9, 16]
    ensures Squares([2, 3, 5]) == [4, 9, 25]
  {
  }

  /** The exact quotient `total / count` before it is rounded to a float. */
  datatype Mean = Mean(total: int, count: nat)

  /** `average`: `ValueError` on the empty list; otherwise the sum over the length. */
  function Average(nums: seq<int>): (r: Result<Mean, string>)
    ensures r.Failure? <==> nums == []
    ensures r.Failure? ==> r.error == "Cannot calculate average of an empty list"
    ensures r.Success? ==> r.value.count == |nums| && r.value.total == Sum(nums)
  {
    if |nums| == 0 then Failure("Cannot calculate average of an empty list")
    else Success(Mean(Sum(nums), |nums|))
  }

  /** The mean lies between any lower and upper bound of the elements. */
  lemma {:induction false} SumBounds(nums: seq<int>, lo: int, hi: int)
    requires forall i :: 0 <= i < |nums| ==> lo <= nums[i] <= hi
    ensures |nums| * lo <= Sum(nums) <= |nums| * hi
  {
    if |nums| > 0 {
      SumBounds(nums[1..], lo, hi);
    }
  }
}

=== FILE: sequences.dfy ===
/** Order-preserving filtering, the shape of Python's `[x for x in xs if keep(x)]`. */
module Sequences {

  /** `sub` can be obtained from `s` by deleting elements, without reordering the rest. */
  predicate IsSubsequence<T(==)>(sub: seq<T>, s: seq<T>)
    decreases |s|
  {
    if |sub| == 0 then true
    else if |s| == 0 then false
    else if sub[0] == s[0] then IsSubsequence(sub[1..], s[1..])
    else IsSubsequence(sub, s[1..])
  }

  /** How many elements of `s` satisfy `p`, duplicates counted. */
  function Count<T>(s: seq<T>, p: T -> bool): (n: nat)
    ensures n <= |s|
  {
    if |s| == 0 then 0 else (if p(s[0]) then 1 else 0) + Count(s[1..], p)
  }

  /** The elements of `s` that satisfy `keep`, in their original order. */
  function Filter<T(==)>(s: seq<T>, keep: T -> bool): (r: seq<T>)
    ensures |r| == Count(s, keep)
    ensures forall i :: 0 <= i < |r| ==> keep(r[i]) && r[i] in s
    ensures forall i :: 0 <= i < |s| && keep(s[i]) ==> s[i] in r
    ensures |r| == |s| <==> forall i :: 0 <= i < |s| ==> keep(s[i])
    ensures IsSubsequence(r, s)
  {
    if |s| == 0 then []
    else if keep(s[0]) then [s[0]] + Filter(s[1..], keep)
    else Filter(s[1..], keep)
  }

  /** Deleting elements adds none: every element of a subsequence occurs in the sequence. */
  lemma {:induction false} SubsequenceElements<T>(sub: seq<T>, s: seq<T>)
    requires IsSubsequence(sub, s)
    ensures forall x :: x in sub ==> x in s
    decreases |s|
  {
    if |sub| > 0 {
      if sub[0] == s[0] {
        SubsequenceElements(sub[1..], s[1..]);
        forall x | x in sub
          ensures x in s
        {
          if x != sub[0] {
            assert x in sub[1..];
          }
        }
      } else {
        SubsequenceElements(sub, s[1..]);
      }
    }
  }

  /** A subsequence of `[c]` is empty or starts with `c`. */
  lemma SubsequenceOfSingleton<T>(sub: seq<T>, c: T)
    requires IsSubsequence(sub, [c])
    ensures sub == [] || sub[0] == c
  {
    assert [c][1..] == [];
  }

  /** A subsequence whose elements all satisfy `keep` has at most as many
      elements as `s` has elements satisfying `keep`. */
  lemma {:induction false} SubsequenceCount<T>(sub: seq<T>, s: seq<T>, keep: T -> bool)
    requires IsSubsequence(sub, s)
    requires forall i :: 0 <= i < |sub| ==> keep(sub[i])
    ensures |sub| <= Count(s, keep)
    decreases |s|
  {
    if |sub| > 0 {
      if sub[0] == s[0] {
        SubsequenceCount(sub[1..], s[1..], keep);
      } else {
        SubsequenceCount(sub, s[1..], keep);
      }
    }
  }

  /** The filter is pinned down by its properties: the only subsequence of `s`
      made of elements satisfying `keep`, and as long as there are such elements,
      is `Filter(s, keep)`. Duplicates are therefore kept. */
  lemma {:induction false} FilterUnique<T>(sub: seq<T>, s: seq<T>, keep: T -> bool)
    requires IsSubsequence(sub, s)
    requires forall i :: 0 <= i < |sub| ==> keep(sub[i])
    requires |sub| == Count(s, keep)
    ensures sub == Filter(s, keep)
    decreases |s|
  {
    if |s| > 0 {
      if |sub| > 0 && sub[0] == s[0] {
        FilterUnique(sub[1..], s[1..], keep);
        assert sub == [sub[0]] + sub[1..];
      } else if keep(s[0]) {
        if |sub| > 0 {
          SubsequenceCount(sub, s[1..], keep);
        }
        assert false;
      } else {
        FilterUnique(sub, s[1..], keep);
      }
    }
  }
}

=== FILE: service.dfy ===
/** `TaskService` of tp2_task_manager/app.py: a repository in memory, written back
    whole to its file after every successful mutation. */
module Service {
  import opened Wrappers
  import opened Json
  import opened Sequences
  import opened Text
  import opened Storage
  import opened Tasks

  /** The service: its repository and the file its filename resolves to. */
  datatype TaskService = TaskService(repo: Repository, file: FileState)

  /** `ValueError`, `TaskNotFoundError`, or an exception out of `load_from_dicts`. */
  datatype ServiceError =
    | ValueError(message: string)
    | TaskNotFound(message: string)
    | CorruptStore(cause: LoadError)

  const EmptyTitleMessage: string := "Task title cannot be empty"

  /** `f"Task with ID {task_id} not found"`, which names the id in decimal. */
  function NotFoundMessage(id: int): (msg: string)
    ensures |msg| == 13 + |IntToDecimal(id)| + 10
    ensures msg[..13] == "Task with ID "
    ensures msg[13..13 + |IntToDecimal(id)|] == IntToDecimal(id)
    ensures msg[13 + |IntToDecimal(id)|..] == " not found"
    ensures ParseInt(msg[13..13 + |IntToDecimal(id)|]) == Some(id)
  {
    var digits := IntToDecimal(id);
    var msg := "Task with ID " + digits + " not found";
    assert msg[..13] == "Task with ID ";
    assert msg[13..13 + |digits|] == digits;
    assert msg[13 + |digits|..] == " not found";
    IntToDecimalRoundTrip(id);
    msg
  }

  /** The invariant every reachable service keeps. */
  predicate Valid(s: TaskService) {
    IdsBelowNext(s.repo)
  }

  /** The stored list is exactly `to_dicts` of the repository. */
  predicate Synced(s: TaskService) {
    LoadTasks(s.file) == ToDicts(s.repo.tasks)
  }

  /** `_sync_to_storage`. */
  function SyncToStorage(repo: Repository, file: FileState): (s: TaskService)
    ensures Synced(s) && s.repo == repo
  {
    TaskService(repo, SaveTasks(ToDicts(repo.tasks)))
  }

  /** `_sync_from_storage` into a fresh service: the repository is rebuilt from
      whatever list the file yields, and the next id recomputed from it. */
  function SyncFromStorage(file: FileState): (r: Result<TaskService, ServiceError>)
    ensures r.Success? <==> forall i :: 0 <= i < |LoadTasks(file)| ==> RecordToTask(LoadTasks(file)[i]).Success?
    ensures r.Success? ==> |r.value.repo.tasks| == |LoadTasks(file)|
    ensures r.Success? ==> forall i :: 0 <= i < |LoadTasks(file)| ==>
      RecordToTask(LoadTasks(file)[i]) == Success(r.value.repo.tasks[i])
    ensures r.Success? ==> r.value.repo.nextId == NextIdFor(r.value.repo.tasks)
    ensures r.Success? ==> Valid(r.value) && r.value.file == file
    ensures r.Failure? ==> r.error.CorruptStore?
    ensures LoadTasks(file) == [] ==> r == Success(TaskService(EmptyRepository, file))
  {
    match LoadFromDicts(LoadTasks(file))
    case Failure(e) => Failure(CorruptStore(e))
    case Success(repo) => Success(TaskService(repo, file))
  }

  /** `TaskService(filename)`: an empty repository, then a load from the file. */
  function Open(file: FileState): (r: Result<TaskService, ServiceError>)
    ensures file.Absent? || file.Unparseable? ==> r == Success(TaskService(EmptyRepository, file))
    ensures r.Success? <==> forall i :: 0 <= i < |LoadTasks(file)| ==> RecordToTask(LoadTasks(file)[i]).Success?
    ensures r.Success? ==> |r.value.repo.tasks| == |LoadTasks(file)|
    ensures r.Success? ==> forall i :: 0 <= i < |LoadTasks(file)| ==>
      RecordToTask(LoadTasks(file)[i]) == Success(r.value.repo.tasks[i])
    ensures r.Success? ==> r.value.repo.nextId == NextIdFor(r.value.repo.tasks)
    ensures r.Success? ==> Valid(r.value) && r.value.file == file
    ensures r.Failure? ==> r.error.CorruptStore?
  {
    SyncFromStorage(file)
  }

  /** Reloading a file that holds `to_dicts` of some tasks gives back those tasks,
      with the next id recomputed as one more than the largest. */
  lemma ReloadOfSyncedFile(s: TaskService)
    requires Synced(s)
    ensures SyncFromStorage(s.file) == Success(TaskService(Repository(s.repo.tasks, NextIdFor(s.repo.tasks)), s.file))
  {
    LoadFromDictsOfToDicts(s.repo.tasks);
  }

  /** `create_task`: reject a title that is empty or only whitespace; otherwise
      append an open task with the stripped title and the next id, and save. */
  function CreateTask(s: TaskService, title: string): (r: Result<(TaskService, Task), ServiceError>)
    ensures r.Failure? <==> AllSpace(title)
    ensures r.Failure? ==> r.error == ValueError(EmptyTitleMessage)
    ensures r.Success? ==>
      var (s', t) := r.value;
      && t == Task(s.repo.nextId, Strip(title), false)
      && s'.repo.tasks == s.repo.tasks + [t]
      && Synced(s')
      && Valid(s')
    ensures r.Success? && Valid(s) ==>
      && !HasTask(s.repo.tasks, r.value.1.id)
      && r.value.0.repo.nextId == s.repo.nextId + 1
  {
    var stripped := Strip(title);
    if stripped == "" then Failure(ValueError(EmptyTitleMessage))
    else
      var task := Task(s.repo.nextId, stripped, false);
      Success((SyncToStorage(Add(s.repo, task), s.file), task))
  }

  /** Under the invariant, creation keeps ids pairwise distinct. */
  lemma CreateKeepsIdsUnique(s: TaskService, title: string)
    requires Valid(s) && UniqueIds(s.repo.tasks)
    ensures CreateTask(s, title).Success? ==> UniqueIds(CreateTask(s, title).value.0.repo.tasks)
  {
    if CreateTask(s, title).Success? {
      var tasks := CreateTask(s, title).value.0.repo.tasks;
      var n := |s.repo.tasks|;
      forall i, j | 0 <= i < j < |tasks|
        ensures tasks[i].id != tasks[j].id
      {
        assert tasks[i] == s.repo.tasks[i];
        if j < n {
          assert tasks[j] == s.repo.tasks[j];
        } else {
          assert tasks[j].id == s.repo.nextId;
          assert s.repo.tasks[i].id < s.repo.nextId;
        }
      }
    }
  }

  /** A title made of the Mongolian vowel separator is not blank for Python 3's
      `strip()`, so `create_task` stores it as given. */
  lemma CreateAcceptsVowelSeparator(s: TaskService, title: string)
    requires title == "\U{180E}"
    ensures CreateTask(s, title).Success? && CreateTask(s, title).value.1.title == title
  {
    StripKeepsVowelSeparator(title);
  }

  /** `retrieve_all_tasks`: reload from the file first, then list in insertion order. */
  function RetrieveAllTasks(s: TaskService): (r: Result<(TaskService, seq<Task>), ServiceError>)
    ensures r.Success? <==> forall i :: 0 <= i < |LoadTasks(s.file)| ==> RecordToTask(LoadTasks(s.file)[i]).Success?
    ensures r.Success? ==> |r.value.1| == |LoadTasks(s.file)|
    ensures r.Success? ==> forall i :: 0 <= i < |LoadTasks(s.file)| ==>
      RecordToTask(LoadTasks(s.file)[i]) == Success(r.value.1[i])
    ensures r.Success? ==> r.value.0.repo.nextId == NextIdFor(r.value.1)
    ensures r.Success? ==> r.value.1 == r.value.0.repo.tasks && Valid(r.value.0) && r.value.0.file == s.file
    ensures r.Failure? ==> r.error.CorruptStore?
    ensures Synced(s) ==> r.Success? && r.value.1 == s.repo.tasks && Synced(r.value.0)
    ensures Synced(s) ==> r.value.0.repo.nextId == NextIdFor(s.repo.tasks)
    ensures Synced(s) && Valid(s) && s.repo.tasks != [] ==> r.value.0.repo.nextId <= s.repo.nextId
  {
    assert Synced(s) ==> SyncFromStorage(s.file) == Success(TaskService(Repository(s.repo.tasks, NextIdFor(s.repo.tasks)), s.file)) by {
      if Synced(s) {
        ReloadOfSyncedFile(s);
      }
    }
    NextIdBound(s.repo);
    var s' :- SyncFromStorage(s.file);
    Success((s', s'.repo.tasks))
  }

  /** Under the invariant, `nextId` is at least the recomputed value. */
  lemma NextIdBound(repo: Repository)
    ensures IdsBelowNext(repo) && repo.tasks != [] ==> NextIdFor(repo.tasks) <= repo.nextId
  {
    if IdsBelowNext(repo) && |repo.tasks| > 0 {
      var n := NextIdFor(repo.tasks);
      assert HasTask(repo.tasks, n - 1);
      var i :| 0 <= i < |repo.tasks| && repo.tasks[i].id == n - 1;
      assert repo.tasks[i].id < repo.nextId;
    }
  }

  /** `retrieve_task_by_id`: the first task with the id, or `TaskNotFoundError`. */
  function RetrieveTaskById(s: TaskService, id: int): (r: Result<Task, ServiceError>)
    ensures r.Success? <==> HasTask(s.repo.tasks, id)
    ensures r.Success? ==> exists k :: IsFirstWithId(s.repo.tasks, id, k) && s.repo.tasks[k] == r.value
    ensures r.Failure? ==> r.error == TaskNotFound(NotFoundMessage(id))
  {
    match FindById(s.repo, id)
    case None => Failure(TaskNotFound(NotFoundMessage(id)))
    case Some(t) => Success(t)
  }

  /** `after` is `before` with only the completion flag of task `k` flipped. */
  predicate Toggled(before: seq<Task>, after: seq<Task>, k: int) {
    && |after| == |before|
    && 0 <= k < |before|
    && after[k].id == before[k].id
    && after[k].title == before[k].title
    && after[k].done == !before[k].done
    && forall j :: 0 <= j < |before| && j != k ==> after[j] == before[j]
  }

  /** `update_task_completion`: flip `done` on the first task with the id and save. */
  function UpdateTaskCompletion(s: TaskService, id: int): (r: Result<(TaskService, Task), ServiceError>)
    ensures r.Success? <==> HasTask(s.repo.tasks, id)
    ensures r.Failure? ==> r.error == TaskNotFound(NotFoundMessage(id))
    ensures r.Success? ==>
      var (s', t) := r.value;
      && (exists k :: IsFirstWithId(s.repo.tasks, id, k) && Toggled(s.repo.tasks, s'.repo.tasks, k) && t == s'.repo.tasks[k])
      && s'.repo.nextId == s.repo.nextId
      && Synced(s')
      && (Valid(s) ==> Valid(s'))
  {
    match FirstIndexOf(s.repo.tasks, id)
    case None => Failure(TaskNotFound(NotFoundMessage(id)))
    case Some(k) =>
      var task := s.repo.tasks[k].(done := !s.repo.tasks[k].done);
      var repo := s.repo.(tasks := s.repo.tasks[k := task]);
      Success((SyncToStorage(repo, s.file), task))
  }

  /** `delete_task`: remove every task with the id and save, or raise
      `TaskNotFoundError` when none had it. */
  function DeleteTask(s: TaskService, id: int): (r: Result<TaskService, ServiceError>)
    ensures r.Success? <==> HasTask(s.repo.tasks, id)
    ensures r.Failure? ==> r.error == TaskNotFound(NotFoundMessage(id))
    ensures r.Success? ==>
      && !HasTask(r.value.repo.tasks, id)
      && (forall i :: 0 <= i < |s.repo.tasks| && s.repo.tasks[i].id != id ==> s.repo.tasks[i] in r.value.repo.tasks)
      && IsSubsequence(r.value.repo.tasks, s.repo.tasks)
      && |r.value.repo.tasks| == Count(s.repo.tasks, (t: Task) => t.id != id)
      && r.value.repo.nextId == s.repo.nextId
      && Synced(r.value)
      && (Valid(s) ==> Valid(r.value))
  {
    var (repo, removed) := RemoveById(s.repo, id);
    if !removed then Failure(TaskNotFound(NotFoundMessage(id)))
    else Success(SyncToStorage(repo, s.file))
  }

  /** Toggling the same task twice restores the repository. */
  lemma ToggleTwiceRestores(s: TaskService, id: int)
    requires HasTask(s.repo.tasks, id)
    ensures
      var s1 := UpdateTaskCompletion(s, id).value.0;
      && UpdateTaskCompletion(s1, id).Success?
      && UpdateTaskCompletion(s1, id).value.0.repo == s.repo
  {
    var s1 := UpdateTaskCompletion(s, id).value.0;
    var k :| IsFirstWithId(s.repo.tasks, id, k) && Toggled(s.repo.tasks, s1.repo.tasks, k);
    ToggleKeepsFirst(s.repo.tasks, s1.repo.tasks, id, k);
    var s2 := UpdateTaskCompletion(s1, id).value.0;
    var k2 :| IsFirstWithId(s1.repo.tasks, id, k2) && Toggled(s1.repo.tasks, s2.repo.tasks, k2);
    FirstWithIdUnique(s1.repo.tasks, id, k, k2);
    ToggledTwice(s.repo.tasks, s1.repo.tasks, s2.repo.tasks, k);
  }

  /** Toggling keeps ids, so the first task with an id stays first. */
  lemma ToggleKeepsFirst(before: seq<Task>, after: seq<Task>, id: int, k: int)
    requires IsFirstWithId(before, id, k) && Toggled(before, after, k)
    ensures IsFirstWithId(after, id, k)
  {
    assert forall j :: 0 <= j < k ==> after[j] == before[j];
  }

  lemma FirstWithIdUnique(tasks: seq<Task>, id: int, k: int, k2: int)
    requires IsFirstWithId(tasks, id, k) && IsFirstWithId(tasks, id, k2)
    ensures k == k2
  {
  }

  /** Flipping the same flag twice restores the list. */
  lemma ToggledTwice(a: seq<Task>, b: seq<Task>, c: seq<Task>, k: int)
    requires Toggled(a, b, k) && Toggled(b, c, k)
    ensures c == a
  {
    assert c[k] == a[k];
    assert forall j :: 0 <= j < |a| ==> c[j] == a[j];
  }

  /** Once deleted, an id is absent from the reloaded list too. */
  lemma DeletedIdNotListed(s: TaskService, id: int)
    requires HasTask(s.repo.tasks, id)
    ensures
      var s1 := DeleteTask(s, id).value;
      && RetrieveAllTasks(s1).Success?
      && !HasTask(RetrieveAllTasks(s1).value.1, id)
  {
  }

  /** Without a reload in between, a task created after a deletion never gets the
      deleted id: `remove_by_id` leaves the counter where it was. */
  lemma CreateAfterDeleteDoesNotReuse(s: TaskService, id: int, title: string)
    requires Valid(s) && HasTask(s.repo.tasks, id)
    requires !AllSpace(title)
    ensures
      var s1 := DeleteTask(s, id).value;
      && CreateTask(s1, title).Success?
      && CreateTask(s1, title).value.1.id == s.repo.nextId
      && CreateTask(s1, title).value.1.id != id
  {
  }

  /** `create_task` applied to each title in turn. */
  function CreateAll(s: TaskService, titles: seq<string>): Result<(TaskService, seq<Task>), ServiceError>
    decreases |titles|
  {
    if |titles| == 0 then Success((s, []))
    else
      var first :- CreateTask(s, titles[0]);
      var rest :- CreateAll(first.0, titles[1..]);
      Success((rest.0, [first.1] + rest.1))
  }

  /** `created` are open tasks with the stripped `titles` and consecutive ids from
      `s`'s next id, appended in order to `s`'s tasks to give `s'`. */
  predicate CreatedInOrder(s: TaskService, titles: seq<string>, s': TaskService, created: seq<Task>) {
    && |created| == |titles|
    && (forall i :: 0 <= i < |titles| ==> created[i] == Task(s.repo.nextId + i, Strip(titles[i]), false))
    && s'.repo.tasks == s.repo.tasks + created
    && s'.repo.nextId == s.repo.nextId + |titles|
    && Valid(s')
  }

  /** Creating tasks one after another hands out consecutive ids from the current
      next id, in insertion order, each with its stripped title. */
  lemma {:induction false} CreateAllConsecutiveIds(s: TaskService, titles: seq<string>)
    requires Valid(s)
    requires forall i :: 0 <= i < |titles| ==> !AllSpace(titles[i])
    ensures CreateAll(s, titles).Success?
    ensures CreatedInOrder(s, titles, CreateAll(s, titles).value.0, CreateAll(s, titles).value.1)
    decreases |titles|
  {
    if |titles| > 0 {
      var r1 := CreateTask(s, titles[0]);
      assert r1.Success?;
      var s1 := r1.value.0;
      var t := r1.value.1;
      var tail := titles[1..];
      assert forall i :: 0 <= i < |tail| ==> tail[i] == titles[i + 1];
      CreateAllConsecutiveIds(s1, tail);
      var r2 := CreateAll(s1, tail);
      assert CreateAll(s, titles) == Success((r2.value.0, [t] + r2.value.1));
      CreatedInOrderCons(s, titles, s1, t, r2.value.0, r2.value.1);
    } else {
      assert s.repo.tasks + [] == s.repo.tasks;
    }
  }

  /** One creation followed by a run of creations is a run of creations. */
  lemma CreatedInOrderCons(s: TaskService, titles: seq<string>, s1: TaskService, t: Task, s2: TaskService, rest: seq<Task>)
    requires |titles| > 0
    requires t == Task(s.repo.nextId, Strip(titles[0]), false)
    requires s1.repo.nextId == s.repo.nextId + 1
    requires s1.repo.tasks == s.repo.tasks + [t]
    requires CreatedInOrder(s1, titles[1..], s2, rest)
    ensures CreatedInOrder(s, titles, s2, [t] + rest)
  {
    var created := [t] + rest;
    var tail := titles[1..];
    forall i | 0 <= i < |titles|
      ensures created[i] == Task(s.repo.nextId + i, Strip(titles[i]), false)
    {
      if i > 0 {
        assert created[i] == rest[i - 1];
        assert tail[i - 1] == titles[i];
      }
    }
    SeqAssoc(s.repo.tasks, [t], rest);
  }

  /** Associativity of concatenation, stated apart so that it is proved without
      the quantified facts of `CreatedInOrderCons` in scope. */
  lemma SeqAssoc<T>(a: seq<T>, b: seq<T>, c: seq<T>)
    ensures (a + b) + c == a + (b + c)
  {
  }

  /** A title that `strip` leaves unchanged and that is not blank. */
  predicate Trimmed(title: string) {
    title != [] && !IsSpace(title[0]) && !IsSpace(title[|title| - 1])
  }

  /** On an empty store, creating three tasks yields ids 1, 2, 3 in insertion order. */
  lemma ThreeCreatesOnEmptyStore(file: FileState, titles: seq<string>)
    requires LoadTasks(file) == []
    requires |titles| == 3 && Trimmed(titles[0]) && Trimmed(titles[1]) && Trimmed(titles[2])
    ensures Open(file).Success?
    ensures
      var r := CreateAll(Open(file).value, titles);
      && r.Success?
      && r.value.0.repo.tasks == [Task(1, titles[0], false), Task(2, titles[1], false), Task(3, titles[2], false)]
  {
    var s := Open(file).value;
    assert s.repo == EmptyRepository;
    ThreeCreatesOnEmptyRepository(s, titles);
  }

  /** The scenario of `ThreeCreatesOnEmptyStore`, from the opened service on. */
  lemma ThreeCreatesOnEmptyRepository(s: TaskService, titles: seq<string>)
    requires s.repo == EmptyRepository
    requires |titles| == 3 && Trimmed(titles[0]) && Trimmed(titles[1]) && Trimmed(titles[2])
    ensures
      var r := CreateAll(s, titles);
      && r.Success?
      && r.value.0.repo.tasks == [Task(1, titles[0], false), Task(2, titles[1], false), Task(3, titles[2], false)]
  {
    forall i | 0 <= i < 3
      ensures Strip(titles[i]) == titles[i] && !AllSpace(titles[i])
    {
      StripOfTrimmed(titles[i]);
    }
    CreateAllConsecutiveIds(s, titles);
    var s' := CreateAll(s, titles).value.0;
    var created := CreateAll(s, titles).value.1;
    assert s'.repo.tasks == created by {
      assert s.repo.tasks == [];
      assert [] + created == created;
    }
    ThreeElements(created, Task(1, titles[0], false), Task(2, titles[1], false), Task(3, titles[2], false));
  }

  /** Sequence extensionality for three elements, stated apart so that it is
      proved without the context of the scenario that uses it. */
  lemma ThreeElements<T>(s: seq<T>, a: T, b: T, c: T)
    requires |s| == 3 && s[0] == a && s[1] == b && s[2] == c
    ensures s == [a, b, c]
  {
  }

  /** A reload recomputes the next id from the ids present: after creating three
      tasks on an empty store, deleting the one with id 3 and retrieving the list,
      the next task created gets id 3 again. */
  lemma ReloadReusesDeletedLargestId(file: FileState, titles: seq<string>, title: string)
    requires LoadTasks(file) == []
    requires |titles| == 3 && Trimmed(titles[0]) && Trimmed(titles[1]) && Trimmed(titles[2])
    requires Trimmed(title)
    ensures Open(file).Success? && CreateAll(Open(file).value, titles).Success?
    ensures
      var s3 := CreateAll(Open(file).value, titles).value.0;
      && DeleteTask(s3, 3).Success?
      && RetrieveAllTasks(DeleteTask(s3, 3).value).Success?
      && var s5 := RetrieveAllTasks(DeleteTask(s3, 3).value).value.0;
      && CreateTask(s5, title).Success?
      && CreateTask(s5, title).value.1.id == 3
  {
    ThreeCreatesOnEmptyStore(file, titles);
    var s3 := CreateAll(Open(file).value, titles).value.0;
    var t1 := Task(1, titles[0], false);
    var t2 := Task(2, titles[1], false);
    var t3 := Task(3, titles[2], false);
    assert s3.repo.tasks == [t1, t2, t3];
    DeleteLargestOfThree(s3, t1, t2, t3);
    var s4 := DeleteTask(s3, 3).value;
    ReloadOfTwo(s4, t1, t2);
    assert !AllSpace(title) by {
      assert !IsSpace(title[0]);
    }
  }

  /** Reloading a synced service holding ids 1 and 2 sets the next id to 3. */
  lemma ReloadOfTwo(s: TaskService, t1: Task, t2: Task)
    requires Synced(s) && s.repo.tasks == [t1, t2]
    requires t1.id == 1 && t2.id == 2
    ensures RetrieveAllTasks(s).Success?
    ensures RetrieveAllTasks(s).value.0.repo.nextId == 3
  {
    assert MaxId([t1, t2]) == 2;
    assert NextIdFor(s.repo.tasks) == 3;
  }

  /** Deleting id 3 from tasks with ids 1, 2 and 3 keeps the first two. */
  lemma DeleteLargestOfThree(s: TaskService, t1: Task, t2: Task, t3: Task)
    requires s.repo.tasks == [t1, t2, t3]
    requires t1.id == 1 && t2.id == 2 && t3.id == 3
    ensures DeleteTask(s, 3).Success?
    ensures DeleteTask(s, 3).value.repo.tasks == [t1, t2]
  {
    assert s.repo.tasks[2].id == 3;
    var kept := DeleteTask(s, 3).value.repo.tasks;
    assert s.repo.tasks[0] == t1 && s.repo.tasks[1] == t2;
    assert t1 in kept && t2 in kept;
    assert t3 !in kept;
    SubsequenceOfThree(kept, t1, t2, t3);
  }

  /** The only subsequence of `[a, b, c]` that contains `a` and `b` but not `c` is `[a, b]`. */
  lemma SubsequenceOfThree(kept: seq<Task>, a: Task, b: Task, c: Task)
    requires IsSubsequence(kept, [a, b, c])
    requires a in kept && b in kept && c !in kept
    requires a != b
    ensures kept == [a, b]
  {
    assert [a, b, c][1..] == [b, c];
    assert [b, c][1..] == [c];
    if kept[0] == a {
      var rest := kept[1..];
      assert b in rest;
      assert IsSubsequence(rest, [b, c]);
      if rest[0] != b {
        assert IsSubsequence(rest, [c]);
        SubsequenceElements(rest, [c]);
        assert false;
      }
      assert IsSubsequence(rest[1..], [c]);
      assert rest[1..] == kept[2..];
      assert c !in rest[1..];
      SubsequenceOfSingleton(rest[1..], c);
      assert rest[1..] == [];
      assert kept == [a] + rest;
    } else {
      assert IsSubsequence(kept, [b, c]);
      SubsequenceElements(kept, [b, c]);
      assert false;
    }
  }
}

=== FILE: storage.dfy ===
/** The JSON-file store of tp2_task_manager/storage.py: a file holding a JSON list
    of task records, loaded and saved whole. */
module Storage {
  import opened Wrappers
  import opened Json
  import opened Sequences

  /** What the store's file holds. `Unparseable` stands for a file that exists but
      whose read raises an `IOError` or whose UTF-8 text is not JSON: the two
      failures `load_tasks` catches. A file whose bytes are not UTF-8 makes the
      read raise `UnicodeDecodeError`, which is not caught; it has no state here. */
  datatype FileState = Absent | Unparseable | Parsed(content: Value)

  /** A list element that is not a dict: Python raises `AttributeError` on `.get`. */
  datatype StorageError = NotARecord

  /** The answer of a load-modify-save operation: whether a record matched,
      and the file afterwards. */
  datatype Written = Written(found: bool, file: FileState)

  /** `Storage.load_tasks`: the decoded list, or the empty list when the file is
      missing, raises `IOError` on reading, is not JSON, or is JSON that is not a list. */
  function LoadTasks(f: FileState): (r: seq<Value>)
    ensures r != [] ==> f.Parsed? && f.content.Arr?
    ensures f.Parsed? && f.content.Arr? ==> r == f.content.items
  {
    match f
    case Parsed(Arr(items)) => items
    case _ => []
  }

  /** `Storage.save_tasks`: the file is overwritten with the whole list, so the
      new state does not depend on what the file held before. */
  function SaveTasks(records: seq<Value>): (f: FileState)
    ensures f.Parsed?
    ensures LoadTasks(f) == records
  {
    Parsed(Arr(records))
  }

  /** `Storage.add_task`: load, append at the end, save. */
  function AddTask(f: FileState, task: Record): (f': FileState)
    ensures LoadTasks(f') == LoadTasks(f) + [Obj(task)]
  {
    SaveTasks(LoadTasks(f) + [Obj(task)])
  }

  predicate AllRecords(items: seq<Value>) {
    forall i :: 0 <= i < |items| ==> items[i].Obj?
  }

  /** `Storage.delete_task`: drop every record whose `"id"` equals `id`, and write
      the file only when that shortened the list. */
  function DeleteTask(f: FileState, id: int): (r: Result<Written, StorageError>)
    ensures var items := LoadTasks(f);
      && (r.Success? <==> AllRecords(items))
      && (r.Success? ==> (r.value.found <==> exists i :: 0 <= i < |items| && HasId(items[i], id)))
      && (r.Success? && !r.value.found ==> r.value.file == f)
      && (r.Success? && r.value.found ==>
            var kept := LoadTasks(r.value.file);
            && (forall i :: 0 <= i < |kept| ==> !HasId(kept[i], id))
            && (forall i :: 0 <= i < |items| && !HasId(items[i], id) ==> items[i] in kept)
            && IsSubsequence(kept, items)
            && |kept| == Count(items, v => !HasId(v, id)))
  {
    var items := LoadTasks(f);
    if !AllRecords(items) then Failure(NotARecord)
    else
      var kept := Filter(items, v => !HasId(v, id));
      if |kept| < |items| then Success(Written(true, SaveTasks(kept)))
      else Success(Written(false, f))
  }

  /** A second delete of the same id finds nothing and leaves the file as it is. */
  lemma DeleteTwiceFindsNothing(f: FileState, id: int)
    requires DeleteTask(f, id).Success?
    ensures var f1 := DeleteTask(f, id).value.file;
      DeleteTask(f1, id) == Success(Written(false, f1))
  {
    var items := LoadTasks(f);
    var f1 := DeleteTask(f, id).value.file;
    var kept := LoadTasks(f1);
    if DeleteTask(f, id).value.found {
      forall i | 0 <= i < |kept|
        ensures kept[i].Obj?
      {
        SubsequenceElements(kept, items);
        assert kept[i] in items;
      }
    }
  }

  /** Every element before index `k` is a dict whose `"id"` does not equal `id`. */
  predicate NoMatchBefore(items: seq<Value>, id: int, k: int)
    requires 0 <= k <= |items|
  {
    forall j :: 0 <= j < k ==> items[j].Obj? && !HasId(items[j], id)
  }

  /** Where the `for` loop of `update_task` stops: the first element that is not a
      dict (the `.get` raises) or whose `"id"` equals `id`; `|items|` if none. */
  function StopIndex(items: seq<Value>, id: int): (k: nat)
    ensures k <= |items|
    ensures NoMatchBefore(items, id, k)
    ensures k < |items| ==> !items[k].Obj? || HasId(items[k], id)
  {
    if |items| == 0 then 0
    else if !items[0].Obj? || HasId(items[0], id) then 0
    else 1 + StopIndex(items[1..], id)
  }

  /** `Storage.update_task`: merge `updates` into the first record whose `"id"`
      equals `id` (Python's `dict.update`: updated keys win, other keys stay),
      save and answer true; answer false without writing when nothing matches. */
  function UpdateTask(f: FileState, id: int, updates: Record): (r: Result<Written, StorageError>)
    ensures var items := LoadTasks(f);
      && (r.Failure? <==> exists k :: 0 <= k < |items| && NoMatchBefore(items, id, k) && !items[k].Obj?)
      && (r.Success? && !r.value.found ==> r.value.file == f && NoMatchBefore(items, id, |items|))
      && (r.Success? && r.value.found ==>
            exists k :: 0 <= k < |items| && NoMatchBefore(items, id, k) && HasId(items[k], id) &&
              var saved := LoadTasks(r.value.file);
              && |saved| == |items|
              && (forall j :: 0 <= j < |items| && j != k ==> saved[j] == items[j])
              && saved[k].Obj?
              && saved[k].fields.Keys == items[k].fields.Keys + updates.Keys
              && (forall key :: key in updates ==> saved[k].fields[key] == updates[key])
              && (forall key :: key in items[k].fields && key !in updates ==>
                    saved[k].fields[key] == items[k].fields[key]))
  {
    var items := LoadTasks(f);
    var k := StopIndex(items, id);
    if k == |items| then Success(Written(false, f))
    else if !items[k].Obj? then Failure(NotARecord)
    else
      var merged := Obj(items[k].fields + updates);
      Success(Written(true, SaveTasks(items[k := merged])))
  }

  /** The stopping index is the only index before which everything is a
      non-matching dict and at which the loop stops. */
  lemma StopIndexUnique(items: seq<Value>, id: int, k: nat)
    requires k <= |items| && NoMatchBefore(items, id, k)
    requires k < |items| ==> !items[k].Obj? || HasId(items[k], id)
    ensures StopIndex(items, id) == k
  {
  }

  /** Merging the same updates twice is merging them once, as long as they leave
      the `"id"` alone. */
  lemma UpdateTwiceSameAsOnce(f: FileState, id: int, updates: Record)
    requires "id" !in updates
    requires UpdateTask(f, id, updates).Success?
    ensures var w := UpdateTask(f, id, updates).value;
      UpdateTask(w.file, id, updates) == Success(w)
  {
    var w := UpdateTask(f, id, updates).value;
    if w.found {
      var items := LoadTasks(f);
      var k := StopIndex(items, id);
      var saved := LoadTasks(w.file);
      assert saved == items[k := Obj(items[k].fields + updates)];
      assert saved[k].fields["id"] == items[k].fields["id"];
      assert NoMatchBefore(saved, id, k) by {
        assert forall j :: 0 <= j < k ==> saved[j] == items[j];
      }
      StopIndexUnique(saved, id, k);
      assert saved[k].fields + updates == saved[k].fields;
      assert saved[k := Obj(saved[k].fields + updates)] == saved;
      assert w.file == SaveTasks(saved);
    }
  }

  /** A path the module-level helpers open: `DEFAULT_TASKS_FILE`, the `tasks.json`
      in the directory of the module, or a name a caller passed. Paths are not
      normalised; the README's "Left out" section says what that loses. */
  datatype Path = DefaultPath | Named(name: string)

  /** The file system the module-level helpers see; a path not in the map does not exist. */
  type FileSystem = map<Path, FileState>

  /** `filename or DEFAULT_TASKS_FILE`: `None` and the empty string are both falsy. */
  function ResolvePath(filename: Option<string>): (path: Path)
    ensures filename.Some? && filename.value != "" ==> path == Named(filename.value)
    ensures filename.None? || filename.value == "" ==> path == DefaultPath
  {
    if filename.Some? && filename.value != "" then Named(filename.value) else DefaultPath
  }

  function FileAt(fs: FileSystem, path: Path): FileState {
    if path in fs then fs[path] else Absent
  }

  /** Module-level `load_tasks(filename)`: the default file when no name is
      given, and the empty list when the file does not exist. */
  function LoadTasksFrom(fs: FileSystem, filename: Option<string>): (r: seq<Value>)
    ensures filename.None? || filename.value == "" ==> r == LoadTasks(FileAt(fs, DefaultPath))
    ensures filename.Some? && filename.value != "" ==> r == LoadTasks(FileAt(fs, Named(filename.value)))
    ensures ResolvePath(filename) !in fs ==> r == []
  {
    LoadTasks(FileAt(fs, ResolvePath(filename)))
  }

  /** Module-level `save_tasks(tasks, filename)`: only the resolved file changes,
      and loading it back, under any name resolving to the same path, gives the list. */
  function SaveTasksTo(fs: FileSystem, records: seq<Value>, filename: Option<string>): (fs': FileSystem)
    ensures forall name: Option<string> {:trigger ResolvePath(name)} ::
      ResolvePath(name) == ResolvePath(filename) ==> LoadTasksFrom(fs', name) == records
    ensures forall path :: path != ResolvePath(filename) ==> FileAt(fs', path) == FileAt(fs, path)
  {
    fs[ResolvePath(filename) := SaveTasks(records)]
  }
}

=== FILE: tasks.dfy ===
/** The domain model of tp2_task_manager/app.py: `Task` and the in-memory
    `TaskRepository`. */
module Tasks {
  import opened Wrappers
  import opened Json
  import opened Sequences

  /** `Task(id, title, done)`; `done` defaults to false when constructed. */
  datatype Task = Task(id: int, title: string, done: bool)

  /** `TaskRepository`: the tasks in insertion order and the id to hand out next.
      `find_all` is the field `tasks` and `get_next_id` the field `nextId`. */
  datatype Repository = Repository(tasks: seq<Task>, nextId: int)

  /** Why `load_from_dicts` cannot build a `Task` from a list element. */
  datatype LoadError =
    | NotARecord      // the element is not a dict: `.items()` raises AttributeError
    | MissingField    // `id` or `title` is absent: `Task(**kwargs)` raises TypeError
    | IllTypedField   // a field of the wrong JSON kind (see the README)

  /** The repository `TaskRepository()` starts as. */
  const EmptyRepository := Repository([], 1)

  predicate HasTask(tasks: seq<Task>, id: int) {
    exists i :: 0 <= i < |tasks| && tasks[i].id == id
  }

  /** The invariant the service relies on: every stored id is below `nextId`. */
  predicate IdsBelowNext(repo: Repository) {
    forall i :: 0 <= i < |repo.tasks| ==> repo.tasks[i].id < repo.nextId
  }

  predicate UniqueIds(tasks: seq<Task>) {
    forall i, j :: 0 <= i < j < |tasks| ==> tasks[i].id != tasks[j].id
  }

  /** `max(t.id for t in tasks)`. */
  function MaxId(tasks: seq<Task>): (m: int)
    requires |tasks| > 0
    ensures forall i :: 0 <= i < |tasks| ==> tasks[i].id <= m
    ensures exists i :: 0 <= i < |tasks| && tasks[i].id == m
  {
    if |tasks| == 1 then tasks[0].id
    else
      var rest := MaxId(tasks[1..]);
      if tasks[0].id >= rest then tasks[0].id else rest
  }

  /** `max(t.id for t in tasks) + 1 if tasks else 1`, the rule both `add` and
      `load_from_dicts` use to recompute the next id. */
  function NextIdFor(tasks: seq<Task>): (n: int)
    ensures forall i :: 0 <= i < |tasks| ==> tasks[i].id < n
    ensures tasks == [] ==> n == 1
    ensures tasks != [] ==> HasTask(tasks, n - 1)
  {
    if |tasks| == 0 then 1 else MaxId(tasks) + 1
  }

  /** `TaskRepository.add`: append at the end, then recompute the next id as one
      more than the largest id present. */
  function Add(repo: Repository, task: Task): (r: Repository)
    ensures r.tasks == repo.tasks + [task]
    ensures IdsBelowNext(r)
    ensures HasTask(r.tasks, r.nextId - 1)
    ensures IdsBelowNext(repo) && task.id == repo.nextId ==> r.nextId == repo.nextId + 1
  {
    var tasks := repo.tasks + [task];
    assert tasks[|tasks| - 1] == task;
    Repository(tasks, NextIdFor(tasks))
  }

  /** Index `k` holds the first task whose id is `id`. */
  predicate IsFirstWithId(tasks: seq<Task>, id: int, k: int) {
    0 <= k < |tasks| && tasks[k].id == id && forall j :: 0 <= j < k ==> tasks[j].id != id
  }

  /** The position of the first task with the given id, if any. */
  function FirstIndexOf(tasks: seq<Task>, id: int): (r: Option<nat>)
    ensures r.Some? <==> HasTask(tasks, id)
    ensures r.Some? ==> IsFirstWithId(tasks, id, r.value)
  {
    if |tasks| == 0 then None
    else if tasks[0].id == id then Some(0)
    else match FirstIndexOf(tasks[1..], id)
      case None => None
      case Some(k) => Some(k + 1)
  }

  /** `TaskRepository.find_by_id`: the first task with that id, or `None`. */
  function FindById(repo: Repository, id: int): (r: Option<Task>)
    ensures r.Some? <==> HasTask(repo.tasks, id)
    ensures r.Some? ==> exists k :: IsFirstWithId(repo.tasks, id, k) && repo.tasks[k] == r.value
  {
    match FirstIndexOf(repo.tasks, id)
    case None => None
    case Some(k) => Some(repo.tasks[k])
  }

  /** `TaskRepository.remove_by_id`: keep the tasks whose id differs, and report
      whether the list got shorter. `nextId` is left alone. */
  function RemoveById(repo: Repository, id: int): (r: (Repository, bool))
    ensures r.1 <==> HasTask(repo.tasks, id)
    ensures !HasTask(r.0.tasks, id)
    ensures forall i :: 0 <= i < |repo.tasks| && repo.tasks[i].id != id ==> repo.tasks[i] in r.0.tasks
    ensures IsSubsequence(r.0.tasks, repo.tasks)
    ensures |r.0.tasks| == Count(repo.tasks, (t: Task) => t.id != id)
    ensures r.0.nextId == repo.nextId
    ensures IdsBelowNext(repo) ==> IdsBelowNext(r.0)
  {
    var kept := Filter(repo.tasks, (t: Task) => t.id != id);
    (Repository(kept, repo.nextId), |kept| < |repo.tasks|)
  }

  /** `asdict(task)`: a dict with exactly the three fields, from which the
      constructor rebuilds the same task. */
  function TaskToDict(t: Task): (v: Value)
    ensures v.Obj? && v.fields.Keys == {"id", "title", "done"}
    ensures RecordToTask(v) == Success(t)
  {
    Obj(map["id" := Int(t.id), "title" := Str(t.title), "done" := Bool(t.done)])
  }

  /** `TaskRepository.to_dicts`. */
  function ToDicts(tasks: seq<Task>): (r: seq<Value>)
    ensures |r| == |tasks|
    ensures forall i :: 0 <= i < |tasks| ==> r[i] == TaskToDict(tasks[i])
  {
    if |tasks| == 0 then [] else [TaskToDict(tasks[0])] + ToDicts(tasks[1..])
  }

  /** A dict with an integer `id`, a string `title`, and a boolean `done` if any:
      the records the constructor accepts. */
  predicate WellTypedRecord(v: Value) {
    && v.Obj?
    && "id" in v.fields && v.fields["id"].Int?
    && "title" in v.fields && v.fields["title"].Str?
    && ("done" in v.fields ==> v.fields["done"].Bool?)
  }

  /** `Task(**{k: v for k, v in d.items() if k in {"id", "title", "done"}})`. */
  function RecordToTask(v: Value): (r: Result<Task, LoadError>)
    ensures r.Success? <==> WellTypedRecord(v)
    ensures !v.Obj? ==> r == Failure(NotARecord)
    ensures v.Obj? && ("id" !in v.fields || "title" !in v.fields) ==> r == Failure(MissingField)
    ensures r.Success? ==> v.Obj? && v.fields["id"] == Int(r.value.id) && v.fields["title"] == Str(r.value.title)
    ensures r.Success? ==> if "done" in v.fields then v.fields["done"] == Bool(r.value.done) else !r.value.done
  {
    if !v.Obj? then Failure(NotARecord)
    else
      var m := v.fields;
      if "id" !in m || "title" !in m then Failure(MissingField)
      else if !m["id"].Int? || !m["title"].Str? || ("done" in m && !m["done"].Bool?) then Failure(IllTypedField)
      else Success(Task(m["id"].i, m["title"].s, "done" in m && m["done"].b))
  }

  /** The list comprehension of `load_from_dicts`: every element converted, or the
      error of the first element that cannot be. */
  function RecordsToTasks(dicts: seq<Value>): (r: Result<seq<Task>, LoadError>)
    ensures r.Success? <==> forall i :: 0 <= i < |dicts| ==> RecordToTask(dicts[i]).Success?
    ensures r.Success? ==> |r.value| == |dicts|
    ensures r.Success? ==> forall i :: 0 <= i < |dicts| ==> RecordToTask(dicts[i]) == Success(r.value[i])
  {
    if |dicts| == 0 then Success([])
    else
      var first :- RecordToTask(dicts[0]);
      var rest :- RecordsToTasks(dicts[1..]);
      Success([first] + rest)
  }

  /** `TaskRepository.load_from_dicts`: replace the tasks and recompute the next id. */
  function LoadFromDicts(dicts: seq<Value>): (r: Result<Repository, LoadError>)
    ensures r.Success? <==> forall i :: 0 <= i < |dicts| ==> RecordToTask(dicts[i]).Success?
    ensures r.Success? ==> |r.value.tasks| == |dicts|
    ensures r.Success? ==> forall i :: 0 <= i < |dicts| ==> RecordToTask(dicts[i]) == Success(r.value.tasks[i])
    ensures r.Success? ==> IdsBelowNext(r.value)
    ensures r.Success? ==> r.value.nextId == NextIdFor(r.value.tasks)
    ensures r.Success? && dicts == [] ==> r.value.nextId == 1
    ensures r.Success? && dicts != [] ==> HasTask(r.value.tasks, r.value.nextId - 1)
  {
    var tasks :- RecordsToTasks(dicts);
    Success(Repository(tasks, NextIdFor(tasks)))
  }

  /** What survives of a stored record once it has been through a `Task`: only
      `id`, `title` and `done`, with `done` false when it was absent. */
  function Normalise(m: Record): Value
    requires "id" in m && "title" in m
  {
    Obj(map["id" := m["id"], "title" := m["title"], "done" := if "done" in m then m["done"] else Bool(false)])
  }

  /** `asdict` and the constructor are inverse: a task survives the trip through
      its dict unchanged. */
  lemma TaskDictRoundTrip(t: Task)
    ensures RecordToTask(TaskToDict(t)) == Success(t)
  {
  }

  /** Keys other than `id`, `title` and `done` play no part in building a task. */
  lemma RecordToTaskIgnoresOtherKeys(m: Record, m': Record)
    requires forall key :: key in {"id", "title", "done"} ==> (key in m <==> key in m')
    requires forall key :: key in {"id", "title", "done"} && key in m ==> m[key] == m'[key]
    ensures RecordToTask(Obj(m)) == RecordToTask(Obj(m'))
  {
    assert "id" in m <==> "id" in m';
    assert "title" in m <==> "title" in m';
    assert "done" in m <==> "done" in m';
  }

  /** A record without `done` yields an open task. */
  lemma DoneDefaultsToFalse(m: Record)
    requires "done" !in m
    requires "id" in m && m["id"].Int? && "title" in m && m["title"].Str?
    ensures RecordToTask(Obj(m)) == Success(Task(m["id"].i, m["title"].s, false))
  {
  }

  /** `load_from_dicts(to_dicts())` rebuilds the same tasks and the next id from them. */
  lemma {:induction false} LoadFromDictsOfToDicts(tasks: seq<Task>)
    ensures LoadFromDicts(ToDicts(tasks)) == Success(Repository(tasks, NextIdFor(tasks)))
  {
    var dicts := ToDicts(tasks);
    forall i | 0 <= i < |dicts|
      ensures RecordToTask(dicts[i]) == Success(tasks[i])
    {
      TaskDictRoundTrip(tasks[i]);
    }
    var r := LoadFromDicts(dicts);
    assert r.Success?;
    assert r.value.tasks == tasks;
  }

  /** `to_dicts(load_from_dicts(ds))` gives back each record with only the three task
      keys kept and `done` filled in. */
  lemma ToDictsOfLoaded(dicts: seq<Value>)
    requires LoadFromDicts(dicts).Success?
    ensures var out := ToDicts(LoadFromDicts(dicts).value.tasks);
      && |out| == |dicts|
      && forall i :: 0 <= i < |dicts| ==>
           (dicts[i].Obj? && "id" in dicts[i].fields && "title" in dicts[i].fields &&
            out[i] == Normalise(dicts[i].fields))
  {
    var tasks := LoadFromDicts(dicts).value.tasks;
    forall i | 0 <= i < |dicts|
      ensures dicts[i].Obj? && "id" in dicts[i].fields && "title" in dicts[i].fields
      ensures TaskToDict(tasks[i]) == Normalise(dicts[i].fields)
    {
      assert RecordToTask(dicts[i]) == Success(tasks[i]);
      var m := dicts[i].fields;
      if "done" in m {
        assert m["done"] == Bool(m["done"].b);
      }
    }
  }
}

=== FILE: text.dfy ===
/** The string primitives the task manager relies on: Python's `str.strip()` and
    the decimal rendering of an `int` inside an f-string. */
module Text {
  import opened Wrappers

  /** The characters for which Python 3's `str.isspace()` holds: ASCII tab, line
      feed, vertical tab, form feed, carriage return, the four information
      separators, space, NEL, no-break space, the Ogham space mark, the Unicode
      spaces U+2000 to U+200A, the line and paragraph separators, the narrow
      no-break space, the medium mathematical space and the ideographic space.
      U+180E, the Mongolian vowel separator, is not among them: Unicode 6.3 made
      it a format character, and every Python 3 from 3.4 on follows that. */
  const SpaceChars: set<char> := {
      '\U{9}', '\U{A}', '\U{B}', '\U{C}', '\U{D}', '\U{1C}',
      '\U{1D}', '\U{1E}', '\U{1F}', ' ', '\U{85}', '\U{A0}',
      '\U{1680}', '\U{2000}', '\U{2001}', '\U{2002}', '\U{2003}', '\U{2004}',
      '\U{2005}', '\U{2006}', '\U{2007}', '\U{2008}', '\U{2009}', '\U{200A}',
      '\U{2028}', '\U{2029}', '\U{202F}', '\U{205F}', '\U{3000}'
    }

  predicate IsSpace(c: char) {
    c in SpaceChars
  }

  predicate AllSpace(s: string) {
    forall i :: 0 <= i < |s| ==> IsSpace(s[i])
  }

  /** Every character of `s` at a position in `[lo, hi)` is whitespace. */
  predicate SpaceBetween(s: string, lo: int, hi: int)
    requires 0 <= lo <= hi <= |s|
  {
    forall i :: lo <= i < hi ==> IsSpace(s[i])
  }

  /** How many whitespace characters `s` starts with. */
  function LeadingSpaces(s: string): (k: nat)
    ensures k <= |s| && SpaceBetween(s, 0, k)
    ensures k < |s| ==> !IsSpace(s[k])
  {
    if |s| > 0 && IsSpace(s[0]) then
      var k := 1 + LeadingSpaces(s[1..]);
      assert forall i :: 1 <= i < k ==> s[i] == s[1..][i - 1];
      k
    else 0
  }

  /** Where the whitespace that `s` ends with begins. */
  function TrailingStart(s: string): (k: nat)
    ensures k <= |s| && SpaceBetween(s, k, |s|)
    ensures k > 0 ==> !IsSpace(s[k - 1])
  {
    if |s| > 0 && IsSpace(s[|s| - 1]) then
      var k := TrailingStart(s[..|s| - 1]);
      assert forall i :: k <= i < |s| - 1 ==> s[i] == s[..|s| - 1][i];
      k
    else |s|
  }

  /** `r` is `s` with the first `k` characters and everything after `r` removed,
      and all the removed characters are whitespace. */
  predicate StripsTo(s: string, k: nat, r: string) {
    && k + |r| <= |s|
    && r == s[k..k + |r|]
    && SpaceBetween(s, 0, k)
    && SpaceBetween(s, k + |r|, |s|)
  }

  /** Python's `s.strip()`: the longest run of `s` that neither starts nor ends
      with whitespace, obtained by cutting whitespace off both ends. */
  function Strip(s: string): (r: string)
    ensures r != [] ==> !IsSpace(r[0]) && !IsSpace(r[|r| - 1])
    ensures r == [] <==> AllSpace(s)
  {
    var t := s[LeadingSpaces(s)..];
    StripEdges(s, LeadingSpaces(s), t, TrailingStart(t));
    t[..TrailingStart(t)]
  }

  /** The two cuts of `Strip` leave no whitespace at either end, and nothing at
      all exactly when every character is whitespace. */
  lemma StripEdges(s: string, a: nat, t: string, b: nat)
    requires a <= |s| && SpaceBetween(s, 0, a) && (a < |s| ==> !IsSpace(s[a]))
    requires t == s[a..]
    requires b <= |t| && SpaceBetween(t, b, |t|) && (b > 0 ==> !IsSpace(t[b - 1]))
    ensures var r := t[..b];
      && (r != [] ==> !IsSpace(r[0]) && !IsSpace(r[|r| - 1]))
      && (r == [] <==> AllSpace(s))
  {
    if b > 0 {
      assert t[..b][0] == s[a];
      assert !AllSpace(s) by {
        assert !IsSpace(s[a]);
      }
    }
  }

  /** What `Strip` removes is whitespace at the two ends, and nothing else. */
  lemma StripRemovesOnlyEdgeSpace(s: string)
    ensures exists k: nat :: StripsTo(s, k, Strip(s))
  {
    var a := LeadingSpaces(s);
    var t := s[a..];
    StripsToOfCuts(s, a, t, TrailingStart(t));
    assert StripsTo(s, a, Strip(s));
  }

  /** Cutting `a` leading and `|t| - b` trailing whitespace characters is a strip. */
  lemma StripsToOfCuts(s: string, a: nat, t: string, b: nat)
    requires a <= |s| && SpaceBetween(s, 0, a)
    requires t == s[a..]
    requires b <= |t| && SpaceBetween(t, b, |t|)
    ensures StripsTo(s, a, t[..b])
  {
    assert t[..b] == s[a..a + b];
    assert forall i :: a + b <= i < |s| ==> s[i] == t[i - a];
  }

  /** A string without whitespace at either end is left as it is. */
  lemma StripOfTrimmed(s: string)
    requires s != [] && !IsSpace(s[0]) && !IsSpace(s[|s| - 1])
    ensures Strip(s) == s
  {
    assert LeadingSpaces(s) == 0;
    assert s[0..] == s;
    assert TrailingStart(s) == |s|;
  }

  /** The Mongolian vowel separator is not whitespace, so a title made of it
      survives `strip()` and is not blank. */
  lemma StripKeepsVowelSeparator(title: string)
    requires title == "\U{180E}"
    ensures Strip(title) == title && !AllSpace(title)
  {
    assert !IsSpace(title[0]);
    StripOfTrimmed(title);
  }

  predicate IsDigit(c: char) {
    '0' <= c <= '9'
  }

  predicate AllDigits(s: string) {
    forall i :: 0 <= i < |s| ==> IsDigit(s[i])
  }

  function DigitChar(d: nat): (c: char)
    requires d < 10
    ensures IsDigit(c)
  {
    (48 + d) as char
  }

  function DigitValue(c: char): (d: nat)
    requires IsDigit(c)
    ensures d < 10
  {
    c as int - 48
  }

  /** The decimal digits of `n`, most significant first, without leading zeros. */
  function NatToDecimal(n: nat): (r: string)
    ensures |r| >= 1 && AllDigits(r)
    ensures r[0] == '0' ==> n == 0
    ensures |r| > 1 ==> r[0] != '0'
  {
    if n < 10 then [DigitChar(n)] else NatToDecimal(n / 10) + [DigitChar(n % 10)]
  }

  /** Python's `str(n)` (and `f"{n}"`) for an `int` of at most 4300 digits: a minus
      sign for negative values. Longer values make Python raise `ValueError`,
      which is not modelled. */
  function IntToDecimal(n: int): (r: string)
    ensures |r| >= 1
    ensures n < 0 <==> r[0] == '-'
    ensures forall i :: 0 < i < |r| ==> IsDigit(r[i])
    ensures IsDigit(r[0]) || r[0] == '-'
    ensures |r| > 1 && r[0] != '-' ==> r[0] != '0'
    ensures n < 0 ==> |r| > 1 && r[1] != '0'
  {
    if n < 0 then "-" + NatToDecimal(-n) else NatToDecimal(n)
  }

  /** The value of a string of decimal digits; the inverse of `NatToDecimal`. */
  function ParseNat(s: string): nat
    requires AllDigits(s)
  {
    if |s| == 0 then 0 else ParseNat(s[..|s| - 1]) * 10 + DigitValue(s[|s| - 1])
  }

  /** Digits without a leading zero, unless the numeral is `0` itself. */
  predicate CanonicalDigits(s: string) {
    |s| >= 1 && AllDigits(s) && (|s| > 1 ==> s[0] != '0')
  }

  /** Reads back what `IntToDecimal` writes, and nothing else: an optional minus
      sign and digits without a leading zero, never `-0`. */
  function ParseInt(s: string): Option<int> {
    if |s| >= 2 && s[0] == '-' && CanonicalDigits(s[1..]) && s[1] != '0' then Some(0 - ParseNat(s[1..]) as int)
    else if CanonicalDigits(s) then Some(ParseNat(s))
    else None
  }

  lemma {:induction false} NatToDecimalRoundTrip(n: nat)
    ensures ParseNat(NatToDecimal(n)) == n
  {
    if n >= 10 {
      var prefix := NatToDecimal(n / 10);
      var s := prefix + [DigitChar(n % 10)];
      assert s[..|s| - 1] == prefix;
      NatToDecimalRoundTrip(n / 10);
    }
  }

  /** A numeral without a leading zero is the rendering of its value. */
  lemma {:induction false} ParseNatCanonical(s: string)
    requires CanonicalDigits(s)
    ensures NatToDecimal(ParseNat(s)) == s
    decreases |s|
  {
    if |s| > 1 {
      var p := s[..|s| - 1];
      var d := DigitValue(s[|s| - 1]);
      assert p[0] == s[0];
      assert ParseNat(p) >= 1 by {
        if |p| == 1 {
          assert ParseNat(p) == ParseNat(p[..0]) * 10 + DigitValue(p[0]);
        } else {
          ParseNatPositive(p);
        }
      }
      ParseNatCanonical(p);
      var n := ParseNat(s);
      assert n == ParseNat(p) * 10 + d;
      assert n / 10 == ParseNat(p) && n % 10 == d;
      assert DigitChar(d) == s[|s| - 1];
      assert s == p + [s[|s| - 1]];
    } else {
      assert ParseNat(s) == ParseNat(s[..0]) * 10 + DigitValue(s[0]);
      assert DigitChar(DigitValue(s[0])) == s[0];
    }
  }

  /** A numeral of several digits, not starting with `0`, is at least 10. */
  lemma {:induction false} ParseNatPositive(s: string)
    requires CanonicalDigits(s) && |s| > 1
    ensures ParseNat(s) >= 10
    decreases |s|
  {
    var p := s[..|s| - 1];
    assert p[0] == s[0];
    if |p| == 1 {
      assert ParseNat(p) == ParseNat(p[..0]) * 10 + DigitValue(p[0]);
    } else {
      ParseNatPositive(p);
    }
  }

  /** `ParseInt` reads only canonical renderings: whatever it accepts is exactly
      what `IntToDecimal` writes for the value read. */
  lemma ParseIntOnlyCanonical(s: string)
    requires ParseInt(s).Some?
    ensures s == IntToDecimal(ParseInt(s).value)
  {
    if |s| >= 2 && s[0] == '-' && CanonicalDigits(s[1..]) && s[1] != '0' {
      var digits := s[1..];
      ParseNatCanonical(digits);
      if |digits| > 1 {
        ParseNatPositive(digits);
      } else {
        assert ParseNat(digits) == ParseNat(digits[..0]) * 10 + DigitValue(digits[0]);
      }
      assert s == "-" + digits;
    } else {
      ParseNatCanonical(s);
    }
  }

  /** Rendering an `int` in decimal loses nothing: it can be read back exactly. */
  lemma IntToDecimalRoundTrip(n: int)
    ensures ParseInt(IntToDecimal(n)) == Some(n)
  {
    if n < 0 {
      var s := IntToDecimal(n);
      assert s[1..] == NatToDecimal(-n);
      NatToDecimalRoundTrip(-n);
    } else {
      NatToDecimalRoundTrip(n);
    }
  }
}

=== FILE: wrappers.dfy ===
/** Failure-compatible wrappers used for the exceptions and `None` returns of the task manager. */
module Wrappers {

  /** `None` stands for Python's `None`. */
  datatype Option<+T> = None | Some(value: T)

  /** A computation that either returns a value or raises an error. */
  datatype Result<+T, +E> = Success(value: T) | Failure(error: E) {

    predicate IsFailure() {
      Failure?
    }

    function PropagateFailure<U>(): Result<U, E>
      requires Failure?
    {
      Failure(error)
    }

    function Extract(): T
      requires Success?
    {
      value
    }
  }
}
